=== FILE: README.md ===
# Music visualizer: audio feature pipeline and visualizer arithmetic, in Dafny

This project models the core of a browser music visualizer. The core has two parts.

- **The audio processor** (`AudioProcessor`). It owns an audio context, one analyser node with a 2048-sample window, and a reusable 1024-byte buffer. It also tracks the current source node (an audio file or the microphone). It lets callers swap the source, pull frequency or time-domain bytes into the buffer, and compute the average, bass, mid and treble band means.
- **The four visualizers' per-frame arithmetic** (Bars, Circular, Wave, Particles). The model covers stride sampling, bar and spoke geometry, the waveform mapping, and the particle step with its edge wrap and pairwise links. It also covers the animation loop all four share: every draw that does not throw schedules one next frame, and cleanup cancels it.

The Web Audio and Canvas calls are oracles passed in as parameters. These are: whether a context can be created (`ContextOutcome`), whether `getUserMedia` grants a stream (`MediaOutcome`), and the bytes the analyser computes (`seq<Byte>` of any length). The painting itself is reduced to the numbers handed to the canvas, plus a log of layers for the render loop.

Modules:

- `Wrappers`: `Option` stands for `null` and `Result` stands for a thrown error.
- `Bytes`: the `Byte` type, the left-to-right `Sum`, and `Mean`. `Mean` returns NaN for `0 / 0`.
- `Geometry`: facts about scaling reals, and `Share(a, d, m) = (a / d) * m`, the "value over its maximum, times the room available" shape of every bar, spoke and wave point.
- `AudioProcessor`: the service's state machine and band getters.
- `BarsVisualizer`, `CircularVisualizer`, `WaveVisualizer`, `ParticlesVisualizer`: one module per component in `src/components/Visualizers.jsx`.
- `RenderLoop`: the `requestAnimationFrame` loop and the effect cleanup.

Behaviour of the code worth noting, which the model follows:

- `disconnect()` and `destroy()` keep the analyser. Later pulls still return the buffer, not `null` (`AudioProcessor.PullAfterTeardown`).
- The particle wrap lands on the closed range `[0, width]`, not `[0, width)`. A particle leaving on the left sits exactly on the right edge (`ParticlesVisualizer.WrapIsNotModular`).
- `loadMicrophone` throws one generic `Error`, whatever failed inside its `try`. That includes a missing context after the previous source was already disconnected.
- `loadAudioFile` without a context throws a `TypeError`. By then it has already disconnected the previous source and replaced the audio element.
- The time-domain pull writes into the same 1024-byte buffer. The analyser produces 2048 samples, so only the first 1024 are kept (`AudioProcessor.Overwrite`, `AudioProcessor.GetTimeDomainData`).
- Particles are updated in place. So particle `i` is compared with each later particle `j` using `i`'s new position and `j`'s position before this frame's move (`ParticlesVisualizer.Step`).

## Model

| member | source | states |
|---|---|---|
| Bytes.SumBounds | src/services/AudioProcessor.js:100 | the reduce-sum of a byte slice lies in [0, 255·length] |
| Bytes.Mean | src/services/AudioProcessor.js:100-101 | `sum / length` is NaN exactly on an empty slice, otherwise lies in [0, 255] and times the length gives back the sum |
| AudioProcessor.New | src/services/AudioProcessor.js:4-11 | a new processor has no context, analyser or source, and satisfies the processor invariant |
| AudioProcessor.Initialize | src/services/AudioProcessor.js:13-29 | on success: the given context state, a 2048-sample analyser not yet routed to the destination, bufferLength = fftSize/2 = 1024, and a zero-filled 1024-byte buffer; on failure: false and nothing changed; sources and element untouched; invariant kept |
| AudioProcessor.EnsureContext | src/services/AudioProcessor.js:32-34 | a context exists afterwards iff one existed or one could be created; an existing context leaves the processor unchanged; sources and element are untouched; the processor invariant is kept |
| AudioProcessor.DisconnectSource | src/services/AudioProcessor.js:36-39 | the current source stops feeding the analyser; older nodes and all kinds are kept |
| AudioProcessor.LoadAudioFile | src/services/AudioProcessor.js:31-55 | succeeds iff a context exists or can be created; every earlier node ends up disconnected; on success the new file node is the only connected one, the analyser feeds the destination, the context state, `bufferLength` and buffer are those left by the lazy initialisation, and the paused element on the file's URL is returned; otherwise a TypeError, after which only the previous source is disconnected and the element replaced, with no context, analyser or buffer created; invariant kept |
| AudioProcessor.LoadMicrophone | src/services/AudioProcessor.js:57-82 | a denied stream leaves the (lazily initialised) processor and every source node untouched; success iff granted and a context is available, and then the microphone node is the only connected one while analyser, context state, `bufferLength` and buffer are those left by the lazy initialisation and the element is unchanged; a granted stream that still fails has only disconnected the previous source; every failure carries the "Microphone access denied" message |
| AudioProcessor.Overwrite | src/services/AudioProcessor.js:86 | the buffer keeps its length; a full analyser output replaces it entirely, a short one replaces only its prefix |
| AudioProcessor.PullInto | src/services/AudioProcessor.js:84-94 | null iff no analyser, with no change; otherwise the returned array is the processor's own 1024-byte buffer and nothing else changes |
| AudioProcessor.GetFrequencyData | src/services/AudioProcessor.js:84-88 | null iff no analyser; otherwise the stored buffer is returned, is 1024 bytes, and holds the spectrum's first 1024 bins; a spectrum of exactly `frequencyBinCount` bins fills it exactly |
| AudioProcessor.GetTimeDomainData | src/services/AudioProcessor.js:90-94 | null iff no analyser; otherwise the same stored buffer, now holding the first 1024 samples of the window; for a full 2048-sample window, the buffer followed by the dropped second half is the whole window |
| AudioProcessor.PullsShareOneBuffer | src/services/AudioProcessor.js:84-94 | a time-domain pull after a frequency pull leaves the samples, and no trace of the spectrum, in the one buffer |
| AudioProcessor.BandLayout | src/services/AudioProcessor.js:109-132 | 0 ≤ bassEnd ≤ midStart ≤ midEnd ≤ trebleStart ≤ L for the floor-truncated boundaries |
| AudioProcessor.BandsDisjoint | src/services/AudioProcessor.js:109-132 | no bin lies in two bands, and bins in [⌊0.7L⌋, ⌊0.8L⌋) lie in none |
| AudioProcessor.BandsOf1024 | src/services/AudioProcessor.js:109-132 | for L = 1024 the bands are [0,102), [307,716) and [819,1024) |
| AudioProcessor.BandsNonEmpty | src/services/AudioProcessor.js:109-134 | the bass band is non-empty iff L ≥ 10, mid iff L ≥ 2, treble iff L ≥ 1 |
| AudioProcessor.BassUndefinedBelowTen | src/services/AudioProcessor.js:109-112 | the bass mean is NaN (0/0) exactly when the buffer has fewer than 10 bins |
| AudioProcessor.BandMeansDefined | src/services/AudioProcessor.js:96-135 | with at least 10 bins all four means are numbers in [0, 255] |
| AudioProcessor.BandPartition | src/services/AudioProcessor.js:109-135 | bass, the bass–mid gap, mid, the unnamed 70–80% bins and treble tile the buffer: their sums add to the total |
| AudioProcessor.ReadBand | src/services/AudioProcessor.js:96-99 | a getter pulls fresh data, returns 0 without data, and otherwise applies its band to the pulled buffer |
| AudioProcessor.GetAverageFrequency | src/services/AudioProcessor.js:96-102 | 0 without an analyser; otherwise a number in [0, 255] that times 1024 is the sum of the fresh buffer |
| AudioProcessor.GetBassFrequency | src/services/AudioProcessor.js:104-113 | 0 without an analyser; otherwise the mean of bins [0, 102), a number in [0, 255] |
| AudioProcessor.GetMidFrequency | src/services/AudioProcessor.js:115-125 | 0 without an analyser; otherwise the mean of bins [307, 716), a number in [0, 255] |
| AudioProcessor.GetTrebleFrequency | src/services/AudioProcessor.js:127-136 | 0 without an analyser; otherwise the mean of bins [819, 1024), a number in [0, 255] |
| AudioProcessor.Resume | src/services/AudioProcessor.js:138-142 | only the context state may change; a suspended context runs afterwards, and any other state, or no context, is left as it is |
| AudioProcessor.ResumeIdempotent | src/services/AudioProcessor.js:138-142 | resuming twice equals resuming once |
| AudioProcessor.Disconnect | src/services/AudioProcessor.js:144-152 | no source node is connected afterwards; the element is paused and emptied; context, analyser and buffer are kept |
| AudioProcessor.Destroy | src/services/AudioProcessor.js:154-159 | the processor is exactly the disconnected one (no source node connected, the element paused and emptied, analyser and buffer kept) except that an existing context is closed, not cleared |
| AudioProcessor.PullAfterTeardown | src/services/AudioProcessor.js:144-159 | after disconnect or destroy a pull still returns the buffer |
| AudioProcessor.DestroyedStaysClosed | src/services/AudioProcessor.js:154-159 | a destroyed context stays closed under resume and under a later file load |
| BarsVisualizer.SampleIndex | src/components/Visualizers.jsx:26-31 | bar i reads index i·⌊L/128⌋, which for i < 128 lies inside a buffer with L ≥ 1 |
| BarsVisualizer.SamplesOf1024 | src/components/Visualizers.jsx:28-31 | for the 1024-bin buffer the stride is 8: bar i reads bin 8i, the last bar bin 1016 |
| BarsVisualizer.SamplesIncrease | src/components/Visualizers.jsx:28-31 | with at least one bin per bar, a bar further right reads a strictly higher bin |
| BarsVisualizer.BarHeight | src/components/Visualizers.jsx:31 | bar height lies in [0, 0.8h]: 0 for byte 0, 0.8h for byte 255 |
| BarsVisualizer.BarHeightOrder | src/components/Visualizers.jsx:31 | on a canvas of positive height, a bar is taller iff its byte is larger, and equally tall iff the bytes are equal |
| BarsVisualizer.BarAt | src/components/Visualizers.jsx:27-33 | a bar stands on the bottom edge, has y in [0.2h, h], and starts at x = i·w/128 inside the canvas |
| BarsVisualizer.Frame | src/components/Visualizers.jsx:26-42 | 128 bars side by side from x = 0, each standing on the bottom edge with the height of its sampled byte |
| CircularVisualizer.SampleIndex | src/components/Visualizers.jsx:94-98 | slice i reads index i·⌊L/180⌋, which for i < 180 lies inside a buffer with L ≥ 1 |
| CircularVisualizer.SamplesOf1024 | src/components/Visualizers.jsx:94-98 | for 1024 bins the stride is 5, so bins 900 and above are never drawn |
| CircularVisualizer.Radius | src/components/Visualizers.jsx:82 | the radius is non-negative and a quarter of the smaller canvas side at most |
| CircularVisualizer.Hue | src/components/Visualizers.jsx:109 | the hue of slice i is 2i, in [0, 360) |
| CircularVisualizer.HuesDistinct | src/components/Visualizers.jsx:109 | different slices get different hues |
| CircularVisualizer.SpokeLength | src/components/Visualizers.jsx:99-100 | the radial length lies in [0, radius] and reaches the radius at byte 255 |
| CircularVisualizer.SpokeLengthOrder | src/components/Visualizers.jsx:99-100 | with a positive radius a spoke is longer iff its byte is larger |
| CircularVisualizer.Frame | src/components/Visualizers.jsx:94-117 | 180 spokes, each starting on the circle, at most the radius long, spoke i at angle 2i degrees (2π·i/180 radians) with hue (i/180)·360 = 2i |
| CircularVisualizer.RingRadiusAsWritten | src/components/Visualizers.jsx:121 | the ring lies strictly inside the spokes' circle, and its radius is negative exactly when the shorter canvas side is under 40 pixels |
| CircularVisualizer.RingAsWrittenAcceptedIff | src/components/Visualizers.jsx:121 | `arc` accepts the ring radius as written iff both canvas sides are at least 40 |
| CircularVisualizer.SmallCanvasRingThrows | src/components/Visualizers.jsx:121 | on a 30 × 30 canvas the ring radius as written is −2.5 and `arc` throws |
| CircularVisualizer.RingRadius | src/components/Visualizers.jsx:121 | the clamped ring radius is always accepted, equals the written one wherever that one is accepted, and never exceeds the circle radius |
| WaveVisualizer.SampleY | src/components/Visualizers.jsx:185-186 | y = (d/128)·h/2 lies in [0, 255h/256] |
| WaveVisualizer.SilenceIsCentred | src/components/Visualizers.jsx:185-186 | byte 128 maps to exactly h/2 |
| WaveVisualizer.SampleYOrder | src/components/Visualizers.jsx:185-186 | on a canvas of positive height a point is nearer the top edge (smaller y) iff its byte is smaller |
| WaveVisualizer.Point | src/components/Visualizers.jsx:184-194 | point i is a moveTo iff i = 0, has the sample's y, and an x inside the canvas |
| WaveVisualizer.Path | src/components/Visualizers.jsx:172-195 | the accumulating `x += sliceWidth` loop yields one point per sample, point i at x = i·w/L |
| WaveVisualizer.PathShape | src/components/Visualizers.jsx:184-194 | the polyline starts with a moveTo, continues with lineTos, stays in [0, w] × [0, 255h/256], and silent samples sit on h/2 |
| ParticlesVisualizer.FrameIntensity | src/components/Visualizers.jsx:248-258 | intensity = average/255 from a fresh pull is in [0, 1], is 0 without an analyser, and otherwise is the buffer sum over 255·1024 |
| ParticlesVisualizer.Intensity | src/components/Visualizers.jsx:258 | an average in [0, 255] gives an intensity in [0, 1] that times 255 is the average |
| ParticlesVisualizer.Wrap | src/components/Visualizers.jsx:266-269 | the result lies in [0, bound]; below 0 becomes bound, beyond bound becomes 0, in-range values are kept |
| ParticlesVisualizer.WrapIdempotent | src/components/Visualizers.jsx:266-269 | wrapping a wrapped coordinate changes nothing |
| ParticlesVisualizer.WrapIsNotModular | src/components/Visualizers.jsx:266-269 | −0.5 on a width of 10 lands on 10 (the closed edge), and 10.5 lands on 0 |
| ParticlesVisualizer.Move | src/components/Visualizers.jsx:262-269 | velocity and size are unchanged and the new position lies in [0, w] × [0, h] |
| ParticlesVisualizer.MoveInside | src/components/Visualizers.jsx:262-263 | a step that stays on the canvas moves by exactly v·(1 + intensity) |
| ParticlesVisualizer.MovePreservesSpawned | src/components/Visualizers.jsx:238-269 | the initialisation bounds (position on canvas, velocity in [−1, 1), size in [1, 4)) are kept by every move |
| ParticlesVisualizer.Moved | src/components/Visualizers.jsx:260-269 | every particle of the population is moved, none added or removed |
| ParticlesVisualizer.DrawnSize | src/components/Visualizers.jsx:272 | the drawn size lies in [size, 3·size] |
| ParticlesVisualizer.Alpha | src/components/Visualizers.jsx:274 | the fill alpha lies in [0.6, 1] |
| ParticlesVisualizer.Hue | src/components/Visualizers.jsx:273 | the particle hue lies in [0, 360) |
| ParticlesVisualizer.LinkRadius | src/components/Visualizers.jsx:285 | the link distance 100·(1 + intensity) is at least 100 |
| ParticlesVisualizer.NearIffWithinDistance | src/components/Visualizers.jsx:281-285 | the squared-distance test holds iff `dist < 100·(1 + intensity)` for the non-negative root `dist` |
| ParticlesVisualizer.Row | src/components/Visualizers.jsx:280 | `slice(i + 1)` visits the pairs (i, i+1), …, (i, n−1) in order |
| ParticlesVisualizer.PairsUpToMembership | src/components/Visualizers.jsx:260-280 | after the first i particles, (a, b) has been tested iff a < i and a < b < n |
| ParticlesVisualizer.PairsUpToOrdered | src/components/Visualizers.jsx:260-280 | tests come in strictly increasing (i, j) order, so no pair is tested twice |
| ParticlesVisualizer.PairsUpToLength | src/components/Visualizers.jsx:260-280 | the first i particles take i·(2n − i − 1)/2 tests |
| ParticlesVisualizer.PairCount | src/components/Visualizers.jsx:237-280 | a full frame takes n(n − 1)/2 tests, 19900 for 200 particles |
| ParticlesVisualizer.KeepAppend | src/components/Visualizers.jsx:285-292 | testing one more pair appends it to the links exactly when it is near |
| ParticlesVisualizer.KeepMembership | src/components/Visualizers.jsx:280-293 | a pair is linked iff it was tested and is near |
| ParticlesVisualizer.CompareWithLater | src/components/Visualizers.jsx:280-293 | the inner loop tests exactly row i, appending each near pair to the links |
| ParticlesVisualizer.Step | src/components/Visualizers.jsx:260-294 | the in-place loops produce the moved population, test every pair in nested-loop order, and link exactly the near ones, comparing i's new position with j's old one |
| ParticlesVisualizer.StepLinks | src/components/Visualizers.jsx:260-293 | (i, j) is linked iff i < j < n and moved particle i lies within the link distance of unmoved particle j |
| RenderLoop.FadeAlpha | src/components/Visualizers.jsx:23 | the fade overlay is translucent, in (0, 0.2]; Bars alone uses 0.2 and Particles alone goes below 0.1 (lines 91, 169, 250 give the others) |
| RenderLoop.InitialStopped | src/components/Visualizers.jsx:5-6 | a freshly mounted component (no frame scheduled, `animationRef` null, no listener) is stopped and satisfies the loop invariant |
| RenderLoop.RequestFrame | src/components/Visualizers.jsx:44 | scheduling adds one fresh handle to the pending set and stores it in `animationRef` |
| RenderLoop.Painted | src/components/Visualizers.jsx:16-44 | a frame paints iff there is data or it is Particles, always starting with the fade; the visualizer's content is painted iff there is data; the no-data Particles frame is the fade alone; the Circular ring is painted iff `arc` accepts its radius |
| RenderLoop.Draw | src/components/Visualizers.jsx:16-45 | the surface is only appended to; exactly one fresh handle becomes pending unless the Circular ring throws, in which case nothing is scheduled |
| RenderLoop.Fire | src/components/Visualizers.jsx:44 | a non-pending handle changes nothing; a pending one is consumed, and one fresh handle replaces it unless the frame throws |
| RenderLoop.Setup | src/components/Visualizers.jsx:8-54 | without a canvas nothing happens; with one the first frame is painted, and the listener is installed unless that frame throws |
| RenderLoop.Cleanup | src/components/Visualizers.jsx:56-61 | cleanup removes the listener, cancels the frame `animationRef` names, never adds a pending frame, and leaves the canvas alone |
| RenderLoop.SetupStarts | src/components/Visualizers.jsx:8-54 | on a stopped loop with a canvas, setup runs the loop iff the first frame does not throw, and leaves it stopped if it does; without a canvas nothing runs |
| RenderLoop.FireKeepsRunning | src/components/Visualizers.jsx:16-45 | a fired frame, with or without data, keeps the loop running with one new frame iff it does not throw; a throwing frame leaves nothing pending with the listener still installed; it paints iff there is data or it is Particles |
| RenderLoop.FadeFirst | src/components/Visualizers.jsx:246-256 | for any ring radius, every painted frame starts with the fade; without data only Particles paints, and only its fade |
| RenderLoop.StaleFrameIgnored | src/components/Visualizers.jsx:56-61 | a handle that is not pending paints nothing and changes nothing |
| RenderLoop.CleanupStops | src/components/Visualizers.jsx:56-61 | cleanup of a running loop leaves nothing pending, and no later callback reaches the canvas |
| RenderLoop.Apply | src/components/Visualizers.jsx:8-62 | a frame, an effect re-run or an unmount never shrinks the canvas log and never reuses a handle |
| RenderLoop.Run | src/components/Visualizers.jsx:8-62 | over any sequence of events the canvas log only grows and handles are never reused |
| RenderLoop.ApplySound | src/components/Visualizers.jsx:8-62 | every event keeps at most the frame `animationRef` names pending, and a pending frame only with the listener installed |
| RenderLoop.AtMostOneFramePending | src/components/Visualizers.jsx:8-62 | as written, for every ring radius, under any sequence of frames, effect re-runs and unmounts at most one frame is pending |
| RenderLoop.ApplyRunningOrStopped | src/components/Visualizers.jsx:8-62 | when no frame throws, every event keeps a loop running or stopped |
| RenderLoop.RunningOrStopped | src/components/Visualizers.jsx:8-62 | when no frame throws, a loop is always running with exactly one pending frame or stopped with none |
| RenderLoop.RunningOrStoppedAsWritten | src/components/Visualizers.jsx:8-62 | as written, with the ring radius `radius - 10`: Bars, Wave and Particles on any canvas, and Circular on canvases at least 40 pixels both ways, are always running or stopped |
| RenderLoop.RunningOrStoppedCorrected | src/components/Visualizers.jsx:8-62 | corrected version: with the clamped ring, every visualizer on every canvas is always running or stopped |
| RenderLoop.SmallCanvasStopsCircularAsWritten | src/components/Visualizers.jsx:119-126 | as written, a data frame on a 30 × 30 canvas throws in `arc` and leaves no frame pending although cleanup never ran, so the loop is neither running nor stopped |
| RenderLoop.SmallCanvasKeepsCircularCorrected | src/components/Visualizers.jsx:119-126 | corrected version: the same frame with the clamped ring keeps the loop running |

## Left out

- Web Audio internals: the FFT, the byte scaling in `getByteFrequencyData` and `getByteTimeDomainData`, `AudioContext` creation, `createMediaElementSource`, `createMediaStreamSource` and `getUserMedia`. They are foreign platform calls, so they appear only as oracle parameters (bytes, success or failure).
- `createAnalyser` failing after the context was created. Only the context constructor's failure is modelled, because that is the only failure the platform realistically reports here.
- Asynchrony: `initialize`, `loadAudioFile` and `loadMicrophone` are `async`, and `resume()` and `close()` return promises. Each call is modelled as completing before the next, and the state change is applied at once.
- Object URLs, `crossOrigin` and `console.error` logging carry no state that the core reads back.
- Canvas painting: `fillRect`, gradients, `arc`, `stroke` and the colour strings. Only the numbers handed to them are modelled. The `cos`/`sin` spoke endpoints are left out. Each spoke's angle is kept in degrees.
- `Math.sqrt` is replaced by comparing squared distances (`ParticlesVisualizer.NearIffWithinDistance` relates the two).
- The connection opacity `(1 − dist/100)·0.3` is not modelled. It is negative when 100 ≤ dist < 100·(1 + intensity), so it has no useful bound.
- `Math.random` initialisation is stated only as the `Spawned` bounds. Positions are taken in the closed canvas range.
- IEEE-754 arithmetic. Reals stand for doubles, and `Math.floor(L * k)` is computed exactly as ⌊k·L⌋ with k = 0.1, 0.3, 0.7, 0.8. The two agree for L = 1024.
- The second buffer pull in Particles (the average comes from its own pull) is modelled by `FrameIntensity`. The first pull's contents are not used by the frame beyond the data check.
- What React does after an effect's setup throws (error boundaries, unmounting the tree). The model only records that the listener is not installed and no frame is scheduled.
- Resize handling and `requestAnimationFrame` timing. The resize listener is only a flag. Circular's centre and radius are computed once at setup, so they are parameters of the frame and are not updated on resize.
- `AudioProcessor.LoadAudioFile`, `AudioProcessor.LoadMicrophone`: the branch where a context exists without an analyser is modelled as the code would run it. The processor invariant makes that branch unreachable.
- src/App.jsx (file picker, microphone toggle, fullscreen, screenshot, controls timer, theme and visualizer tables) is UI wiring and is not part of this model.

## Findings

| source | as written | input that shows it | evidently intended | confidence | as-written member | corrected member |
|---|---|---|---|---|---|---|
| src/components/Visualizers.jsx:121 | the centre ring is drawn with `arc(…, radius - 10, …)` where `radius = min(width, height) / 4`; canvas `arc` throws an IndexSizeError for a negative radius, and the throw ends `draw` before `requestAnimationFrame`, so the animation stops for good | a 30 × 30 canvas with audio playing: ring radius −2.5 | the ring is clamped to a non-negative radius and the loop keeps running on any canvas size | medium, not executed | RenderLoop.SmallCanvasStopsCircularAsWritten | CircularVisualizer.RingRadius |

=== FILE: audio_processor.dfy ===
/** The `AudioProcessor` service: an audio context, one analyser tap with its reusable
    byte buffer, and the source node currently feeding the tap. The Web Audio calls
    themselves are oracles passed in as parameters: whether a context can be created,
    whether the microphone is granted, and which bytes the analyser writes. */
module AudioProcessor {
  import opened Wrappers
  import opened Bytes

  /** The transform size `initialize` gives the analyser. */
  const FftSize: nat := 2048

  /** The error `loadMicrophone` throws whenever anything inside its `try` fails. */
  const MicrophoneDenied: string :=
    "Microphone access denied. Please allow microphone access to use this feature."

  /** The error JavaScript throws when a method is called on a `null` context or analyser. */
  const NullReference: string := "TypeError"

  /** An AnalyserNode exposes half its transform size as frequency bins. */
  function FrequencyBinCount(fftSize: nat): (r: nat)
  {
    fftSize / 2
  }

  datatype ContextState = Suspended | Running | Closed

  /** The analyser node; `toDestination` records `analyser.connect(destination)`. */
  datatype Analyser = Analyser(fftSize: nat, toDestination: bool)

  datatype SourceKind = FileSource | MicrophoneSource

  /** A source node of the audio graph; `connected` means it feeds the analyser. */
  datatype SourceNode = SourceNode(kind: SourceKind, connected: bool)

  /** The `Audio` element a file is played through. */
  datatype MediaElement = MediaElement(src: string, paused: bool)

  /** The processor's fields. `nodes` lists every source node created so far, oldest
      first, because a node that was never disconnected keeps feeding the analyser
      after `this.source` moves on; `this.source` is the last of them. */
  datatype Processor = Processor(
    context: Option<ContextState>,
    analyser: Option<Analyser>,
    bufferLength: Option<nat>,
    dataArray: Option<seq<Byte>>,
    nodes: seq<SourceNode>,
    element: Option<MediaElement>)
  {
    /** `this.source`. */
    function Source(): (r: Option<SourceNode>)
    {
      if |nodes| == 0 then None else Some(nodes[|nodes| - 1])
    }
  }

  /** What the platform does when asked for a new AudioContext. */
  datatype ContextOutcome = ContextRefused | ContextCreated(initial: ContextState)

  /** What `getUserMedia` does. */
  datatype MediaOutcome = StreamDenied | StreamGranted

  /** A processor together with what a load call returned or threw. */
  datatype Loaded<T> = Loaded(proc: Processor, result: Result<T>)

  /** A processor together with what a buffer pull returned (`None` for `null`). */
  datatype Pull = Pull(proc: Processor, data: Option<seq<Byte>>)

  /** A processor together with the number a band getter returned. */
  datatype Reading = Reading(proc: Processor, value: Number)

  /** The indices of the source nodes that currently feed the analyser. */
  function Connected(nodes: seq<SourceNode>): (r: set<nat>)
  {
    set k | 0 <= k < |nodes| && nodes[k].connected
  }

  /** The invariant every reachable processor keeps: context and analyser exist together;
      an analyser has the 2048-sample window and a buffer of exactly its bin count; and no
      source node other than the current one feeds the analyser. */
  predicate Valid(p: Processor)
  {
    && (p.context.Some? <==> p.analyser.Some?)
    && (p.analyser.Some? ==>
          && p.analyser.value.fftSize == FftSize
          && p.bufferLength == Some(FrequencyBinCount(FftSize))
          && p.dataArray.Some?
          && |p.dataArray.value| == FrequencyBinCount(FftSize))
    && (p.analyser.None? ==> p.bufferLength.None? && p.dataArray.None?)
    && (forall k :: 0 <= k < |p.nodes| - 1 ==> !p.nodes[k].connected)
  }

  /** The constructor: every field `null`. */
  function New(): (p: Processor)
    ensures Valid(p)
    ensures p.context.None? && p.analyser.None? && p.Source().None?
  {
    Processor(None, None, None, None, [], None)
  }

  /** `initialize`: a new context and an analyser with a 2048-sample window and a
      zero-filled buffer of its 1024 bins; returns false, changing nothing, when the
      context cannot be created. */
  function Initialize(p: Processor, outcome: ContextOutcome): (r: (Processor, bool))
    ensures r.1 <==> outcome.ContextCreated?
    ensures !r.1 ==> r.0 == p
    ensures r.1 ==> r.0.context == Some(outcome.initial)
    ensures r.1 ==> r.0.analyser == Some(Analyser(FftSize, false))
    ensures r.1 ==> r.0.bufferLength == Some(1024) && r.0.bufferLength == Some(FftSize / 2)
    ensures r.1 ==> r.0.dataArray.Some? && |r.0.dataArray.value| == 1024
    ensures r.1 ==> forall k :: 0 <= k < 1024 ==> r.0.dataArray.value[k] == 0
    ensures r.0.nodes == p.nodes && r.0.element == p.element
    ensures Valid(p) ==> Valid(r.0)
  {
    match outcome
    case ContextRefused => (p, false)
    case ContextCreated(initial) =>
      var bins := FrequencyBinCount(FftSize);
      (p.(context := Some(initial),
          analyser := Some(Analyser(FftSize, false)),
          bufferLength := Some(bins),
          dataArray := Some(seq(bins, _ => 0))),
       true)
  }

  /** The lazy `if (!this.audioContext) await this.initialize()` both loaders begin with. */
  function EnsureContext(p: Processor, outcome: ContextOutcome): (r: Processor)
    ensures p.context.Some? ==> r == p
    ensures r.context.Some? <==> p.context.Some? || outcome.ContextCreated?
    ensures r.nodes == p.nodes && r.element == p.element
    ensures Valid(p) ==> Valid(r)
  {
    if p.context.None? then Initialize(p, outcome).0 else p
  }

  /** `this.source.disconnect()` guarded by `if (this.source)`: the current node stops
      feeding the analyser; every other node is kept as it is. */
  function DisconnectSource(nodes: seq<SourceNode>): (r: seq<SourceNode>)
    ensures |r| == |nodes|
    ensures forall k :: 0 <= k < |r| ==> r[k].kind == nodes[k].kind
    ensures forall k :: 0 <= k < |r| - 1 ==> r[k] == nodes[k]
    ensures |r| > 0 ==> !r[|r| - 1].connected
  {
    if |nodes| == 0 then nodes
    else nodes[|nodes| - 1 := nodes[|nodes| - 1].(connected := false)]
  }

  /** `loadAudioFile(file)`: lazily initialise, disconnect the previous source, point a new
      paused element at the file's object URL `url`, then create a source for it and connect
      source -> analyser -> destination. A missing context or analyser throws a TypeError
      after the previous source was already disconnected and the element replaced. */
  function LoadAudioFile(p: Processor, outcome: ContextOutcome, url: string): (r: Loaded<MediaElement>)
    requires Valid(p)
    ensures Valid(r.proc)
    ensures r.result.Ok? <==> p.context.Some? || outcome.ContextCreated?
    ensures r.result.Err? ==> r.result.message == NullReference
    ensures r.result.Err? ==>
              r.proc == p.(nodes := DisconnectSource(p.nodes), element := Some(MediaElement(url, true)))
    ensures r.proc.element == Some(MediaElement(url, true))
    ensures r.result.Ok? ==> r.result.value == MediaElement(url, true)
    ensures forall k :: 0 <= k < |p.nodes| ==>
              k < |r.proc.nodes| && r.proc.nodes[k].kind == p.nodes[k].kind && !r.proc.nodes[k].connected
    ensures r.result.Ok? ==>
              && |r.proc.nodes| == |p.nodes| + 1
              && r.proc.Source() == Some(SourceNode(FileSource, true))
              && Connected(r.proc.nodes) == {|p.nodes|}
              && r.proc.analyser.Some? && r.proc.analyser.value.toDestination
    ensures r.result.Ok? ==>
              && r.proc.context == EnsureContext(p, outcome).context
              && r.proc.bufferLength == EnsureContext(p, outcome).bufferLength
              && r.proc.dataArray == EnsureContext(p, outcome).dataArray
  {
    var p1 := EnsureContext(p, outcome);
    var p2 := p1.(nodes := DisconnectSource(p1.nodes), element := Some(MediaElement(url, true)));
    if p2.context.None? then
      Loaded(p2, Err(NullReference))
    else if p2.analyser.None? then
      Loaded(p2.(nodes := p2.nodes + [SourceNode(FileSource, false)]), Err(NullReference))
    else
      var p3 := p2.(nodes := p2.nodes + [SourceNode(FileSource, true)],
                    analyser := Some(p2.analyser.value.(toDestination := true)));
      assert Connected(p3.nodes) == {|p.nodes|};
      Loaded(p3, Ok(MediaElement(url, true)))
  }

  /** `loadMicrophone()`: lazily initialise, ask for the microphone, and only once the stream
      is granted disconnect the previous source and connect a stream source to the analyser
      (not to the destination). Every failure inside the `try`, a refused stream included,
      is rethrown as the "Microphone access denied" error. */
  function LoadMicrophone(p: Processor, outcome: ContextOutcome, media: MediaOutcome): (r: Loaded<()>)
    requires Valid(p)
    ensures Valid(r.proc)
    ensures r.result.Err? ==> r.result.message == MicrophoneDenied
    ensures media.StreamGranted? && r.result.Err? ==> r.proc == p.(nodes := DisconnectSource(p.nodes))
    ensures r.result.Ok? <==> media.StreamGranted? && (p.context.Some? || outcome.ContextCreated?)
    ensures media.StreamDenied? ==> r.proc == EnsureContext(p, outcome) && r.proc.nodes == p.nodes
    ensures r.proc.element == p.element
    ensures r.result.Ok? ==>
              && |r.proc.nodes| == |p.nodes| + 1
              && r.proc.Source() == Some(SourceNode(MicrophoneSource, true))
              && Connected(r.proc.nodes) == {|p.nodes|}
              && r.proc.analyser == EnsureContext(p, outcome).analyser
              && r.proc.context == EnsureContext(p, outcome).context
              && r.proc.bufferLength == EnsureContext(p, outcome).bufferLength
              && r.proc.dataArray == EnsureContext(p, outcome).dataArray
  {
    var p1 := EnsureContext(p, outcome);
    if media.StreamDenied? then
      Loaded(p1, Err(MicrophoneDenied))
    else
      var p2 := p1.(nodes := DisconnectSource(p1.nodes));
      if p2.context.None? then
        Loaded(p2, Err(MicrophoneDenied))
      else if p2.analyser.None? then
        Loaded(p2.(nodes := p2.nodes + [SourceNode(MicrophoneSource, false)]), Err(MicrophoneDenied))
      else
        var p3 := p2.(nodes := p2.nodes + [SourceNode(MicrophoneSource, true)]);
        assert Connected(p3.nodes) == {|p.nodes|};
        Loaded(p3, Ok(()))
  }

  /** What `getByte…Data(array)` leaves in `array`: the analyser's values copied over the
      front of the buffer, values beyond the buffer's length dropped, and entries beyond
      the values' length left as they were. */
  function Overwrite(buffer: seq<Byte>, written: seq<Byte>): (r: seq<Byte>)
    ensures |r| == |buffer|
    ensures |written| >= |buffer| ==> r == written[..|buffer|]
    ensures |written| <= |buffer| ==> r[..|written|] == written && r[|written|..] == buffer[|written|..]
  {
    seq(|buffer|, i requires 0 <= i < |buffer| => if i < |written| then written[i] else buffer[i])
  }

  /** The shared body of the two pulls: `null` without an analyser, otherwise the one
      buffer, overwritten in place with `written` and returned. */
  function PullInto(p: Processor, written: seq<Byte>): (r: Pull)
    requires Valid(p)
    ensures Valid(r.proc)
    ensures r.data.None? <==> p.analyser.None?
    ensures r.data.None? ==> r.proc == p
    ensures r.data.Some? ==>
              && r.proc == p.(dataArray := r.data)
              && p.bufferLength == Some(|r.data.value|)
              && |r.data.value| == 1024
    ensures r.data.Some? && |written| >= 1024 ==> r.data.value == written[..1024]
  {
    if p.analyser.None? then Pull(p, None)
    else
      var buffer := Overwrite(p.dataArray.value, written);
      Pull(p.(dataArray := Some(buffer)), Some(buffer))
  }

  /** `getFrequencyData()`; `spectrum` is what `getByteFrequencyData` computes, one byte per
      bin: a spectrum of `frequencyBinCount` bins fills the buffer exactly. */
  function GetFrequencyData(p: Processor, spectrum: seq<Byte>): (r: Pull)
    requires Valid(p)
    ensures Valid(r.proc)
    ensures r.data.None? <==> p.analyser.None?
    ensures r.data.None? ==> r.proc == p
    ensures r.data.Some? ==> r.proc == p.(dataArray := r.data) && |r.data.value| == 1024
    ensures r.data.Some? && |spectrum| == FrequencyBinCount(FftSize) ==> r.data.value == spectrum
    ensures r.data.Some? && |spectrum| >= 1024 ==> r.data.value == spectrum[..1024]
  {
    PullInto(p, spectrum)
  }

  /** `getTimeDomainData()`; `samples` is what `getByteTimeDomainData` computes, one byte per
      sample of the 2048-sample window, of which only the first 1024 fit the buffer: for a
      full window the buffer followed by the dropped half is the window. */
  function GetTimeDomainData(p: Processor, samples: seq<Byte>): (r: Pull)
    requires Valid(p)
    ensures Valid(r.proc)
    ensures r.data.None? <==> p.analyser.None?
    ensures r.data.None? ==> r.proc == p
    ensures r.data.Some? ==> r.proc == p.(dataArray := r.data) && |r.data.value| == 1024
    ensures r.data.Some? && |samples| == FftSize ==> r.data.value + samples[1024..] == samples
    ensures r.data.Some? && |samples| >= 1024 ==> r.data.value == samples[..1024]
  {
    PullInto(p, samples)
  }

  /** A time-domain pull reuses the buffer a frequency pull returned: once the analyser
      supplies a full window, nothing of the spectrum is left in it. */
  lemma PullsShareOneBuffer(p: Processor, spectrum: seq<Byte>, samples: seq<Byte>)
    requires Valid(p) && p.analyser.Some?
    requires |samples| >= 1024
    ensures GetTimeDomainData(GetFrequencyData(p, spectrum).proc, samples).proc.dataArray
            == Some(samples[..1024])
    ensures GetTimeDomainData(GetFrequencyData(p, spectrum).proc, samples).proc
            == p.(dataArray := Some(samples[..1024]))
  {
  }

  // Band boundaries: `Math.floor(data.length * 0.1)`, and likewise with 0.3, 0.7 and 0.8.

  function BassEnd(len: nat): (r: nat) { len / 10 }
  function MidStart(len: nat): (r: nat) { 3 * len / 10 }
  function MidEnd(len: nat): (r: nat) { 7 * len / 10 }
  function TrebleStart(len: nat): (r: nat) { 8 * len / 10 }

  /** The bands are laid out in order inside the buffer. */
  lemma BandLayout(len: nat)
    ensures 0 <= BassEnd(len) <= MidStart(len) <= MidEnd(len) <= TrebleStart(len) <= len
  {
  }

  predicate InBass(k: nat, len: nat) { k < BassEnd(len) }
  predicate InMid(k: nat, len: nat) { MidStart(len) <= k < MidEnd(len) }
  predicate InTreble(k: nat, len: nat) { TrebleStart(len) <= k < len }

  /** No bin belongs to two bands, and the bins from 70% to 80% belong to none. */
  lemma BandsDisjoint(k: nat, len: nat)
    ensures !(InBass(k, len) && InMid(k, len))
    ensures !(InBass(k, len) && InTreble(k, len))
    ensures !(InMid(k, len) && InTreble(k, len))
    ensures MidEnd(len) <= k < TrebleStart(len) ==>
              !InBass(k, len) && !InMid(k, len) && !InTreble(k, len)
  {
    BandLayout(len);
  }

  /** The bands of the 1024-bin buffer. */
  lemma BandsOf1024()
    ensures BassEnd(1024) == 102 && MidStart(1024) == 307
    ensures MidEnd(1024) == 716 && TrebleStart(1024) == 819
  {
  }

  /** When each band has at least one bin. */
  lemma BandsNonEmpty(len: nat)
    ensures BassEnd(len) > 0 <==> len >= 10
    ensures MidEnd(len) > MidStart(len) <==> len >= 2
    ensures TrebleStart(len) < len <==> len >= 1
  {
  }

  function Average(data: seq<Byte>): (r: Number) { Mean(data) }
  function Bass(data: seq<Byte>): (r: Number) { Mean(data[..BassEnd(|data|)]) }
  function Mid(data: seq<Byte>): (r: Number) { Mean(data[MidStart(|data|)..MidEnd(|data|)]) }
  function Treble(data: seq<Byte>): (r: Number) { Mean(data[TrebleStart(|data|)..]) }

  /** The bass mean divides by zero on buffers shorter than ten bins. */
  lemma BassUndefinedBelowTen(data: seq<Byte>)
    ensures Bass(data).NaN? <==> |data| < 10
  {
    BandsNonEmpty(|data|);
  }

  /** A buffer of at least ten bins has a mean in [0, 255] for every band. */
  lemma BandMeansDefined(data: seq<Byte>)
    requires |data| >= 10
    ensures Average(data).Num? && 0.0 <= Average(data).value <= 255.0
    ensures Bass(data).Num? && 0.0 <= Bass(data).value <= 255.0
    ensures Mid(data).Num? && 0.0 <= Mid(data).value <= 255.0
    ensures Treble(data).Num? && 0.0 <= Treble(data).value <= 255.0
  {
    BandsNonEmpty(|data|);
  }

  /** The three named bands, the gap between bass and mid, and the unnamed 70%–80% bins
      tile the buffer: their sums add up to the sum the average divides. */
  lemma {:induction false} BandPartition(data: seq<Byte>)
    ensures var len := |data|;
      Sum(data) ==
        Sum(data[..BassEnd(len)]) + Sum(data[BassEnd(len)..MidStart(len)])
        + Sum(data[MidStart(len)..MidEnd(len)]) + Sum(data[MidEnd(len)..TrebleStart(len)])
        + Sum(data[TrebleStart(len)..])
  {
    var len := |data|;
    BandLayout(len);
    var a, b, c, d, e :=
      data[..BassEnd(len)], data[BassEnd(len)..MidStart(len)],
      data[MidStart(len)..MidEnd(len)], data[MidEnd(len)..TrebleStart(len)],
      data[TrebleStart(len)..];
    assert data == a + (b + (c + (d + e)));
    SumConcat(d, e);
    SumConcat(c, d + e);
    SumConcat(b, c + (d + e));
    SumConcat(a, b + (c + (d + e)));
  }

  /** The shared shape of the four getters: pull the spectrum, return 0 without data,
      otherwise the band mean of the fresh buffer. */
  function ReadBand(p: Processor, spectrum: seq<Byte>, band: seq<Byte> -> Number): (r: Reading)
    requires Valid(p)
    ensures Valid(r.proc)
    ensures r.proc == GetFrequencyData(p, spectrum).proc
    ensures p.analyser.None? ==> r.value == Num(0.0)
    ensures p.analyser.Some? ==> r.value == band(r.proc.dataArray.value)
  {
    var pulled := GetFrequencyData(p, spectrum);
    if pulled.data.None? then Reading(pulled.proc, Num(0.0))
    else Reading(pulled.proc, band(pulled.data.value))
  }

  /** `getAverageFrequency()`: 0 without an analyser, otherwise the mean of all 1024 bins. */
  function GetAverageFrequency(p: Processor, spectrum: seq<Byte>): (r: Reading)
    requires Valid(p)
    ensures Valid(r.proc) && r.proc == GetFrequencyData(p, spectrum).proc
    ensures p.analyser.None? ==> r.value == Num(0.0)
    ensures p.analyser.Some? ==>
              && r.value.Num? && 0.0 <= r.value.value <= 255.0
              && r.value.value * 1024.0 == Sum(r.proc.dataArray.value) as real
  {
    ReadBand(p, spectrum, Average)
  }

  /** `getBassFrequency()`: 0 without an analyser, otherwise the mean of bins [0, 102). */
  function GetBassFrequency(p: Processor, spectrum: seq<Byte>): (r: Reading)
    requires Valid(p)
    ensures Valid(r.proc) && r.proc == GetFrequencyData(p, spectrum).proc
    ensures p.analyser.None? ==> r.value == Num(0.0)
    ensures p.analyser.Some? ==>
              && r.value == Mean(r.proc.dataArray.value[0..102])
              && r.value.Num? && 0.0 <= r.value.value <= 255.0
  {
    BandsOf1024();
    ReadBand(p, spectrum, Bass)
  }

  /** `getMidFrequency()`: 0 without an analyser, otherwise the mean of bins [307, 716). */
  function GetMidFrequency(p: Processor, spectrum: seq<Byte>): (r: Reading)
    requires Valid(p)
    ensures Valid(r.proc) && r.proc == GetFrequencyData(p, spectrum).proc
    ensures p.analyser.None? ==> r.value == Num(0.0)
    ensures p.analyser.Some? ==>
              && r.value == Mean(r.proc.dataArray.value[307..716])
              && r.value.Num? && 0.0 <= r.value.value <= 255.0
  {
    BandsOf1024();
    ReadBand(p, spectrum, Mid)
  }

  /** `getTrebleFrequency()`: 0 without an analyser, otherwise the mean of bins [819, 1024). */
  function GetTrebleFrequency(p: Processor, spectrum: seq<Byte>): (r: Reading)
    requires Valid(p)
    ensures Valid(r.proc) && r.proc == GetFrequencyData(p, spectrum).proc
    ensures p.analyser.None? ==> r.value == Num(0.0)
    ensures p.analyser.Some? ==>
              && r.value == Mean(r.proc.dataArray.value[819..1024])
              && r.value.Num? && 0.0 <= r.value.value <= 255.0
  {
    BandsOf1024();
    var r := ReadBand(p, spectrum, Treble);
    assert p.analyser.Some? ==> r.proc.dataArray.value[819..] == r.proc.dataArray.value[819..1024];
    r
  }

  /** `resume()`: a suspended context starts running; anything else is left alone. */
  function Resume(p: Processor): (r: Processor)
    ensures r == p.(context := r.context)
    ensures r.context.Some? <==> p.context.Some?
    ensures r.context != Some(Suspended)
    ensures p.context == Some(Suspended) ==> r.context == Some(Running)
    ensures p.context != Some(Suspended) ==> r == p
    ensures Valid(p) ==> Valid(r)
  {
    if p.context == Some(Suspended) then p.(context := Some(Running)) else p
  }

  /** Resuming twice is resuming once. */
  lemma ResumeIdempotent(p: Processor)
    ensures Resume(Resume(p)) == Resume(p)
  {
  }

  /** `disconnect()`: the current source stops feeding the analyser and the element is
      paused and emptied; context, analyser and buffer are kept. */
  function Disconnect(p: Processor): (r: Processor)
    requires Valid(p)
    ensures Valid(r)
    ensures Connected(r.nodes) == {}
    ensures |r.nodes| == |p.nodes|
    ensures forall k :: 0 <= k < |r.nodes| ==> r.nodes[k].kind == p.nodes[k].kind
    ensures r.context == p.context && r.analyser == p.analyser
    ensures r.bufferLength == p.bufferLength && r.dataArray == p.dataArray
    ensures p.element.Some? ==> r.element == Some(MediaElement("", true))
    ensures p.element.None? ==> r.element.None?
  {
    var element := if p.element.Some? then Some(MediaElement("", true)) else None;
    var r := p.(nodes := DisconnectSource(p.nodes), element := element);
    assert Connected(r.nodes) == {};
    r
  }

  /** `destroy()`: disconnect, then close the context; the context is not cleared. */
  function Destroy(p: Processor): (r: Processor)
    requires Valid(p)
    ensures Valid(r)
    ensures Connected(r.nodes) == {}
    ensures p.context.Some? ==> r.context == Some(Closed)
    ensures p.context.None? ==> r.context.None?
    ensures r.analyser == p.analyser && r.dataArray == p.dataArray
    ensures r == Disconnect(p).(context := r.context)
  {
    var q := Disconnect(p);
    if q.context.Some? then q.(context := Some(Closed)) else q
  }

  /** Neither `disconnect` nor `destroy` clears the analyser, so a later pull still
      returns the buffer rather than `null`. */
  lemma PullAfterTeardown(p: Processor, spectrum: seq<Byte>)
    requires Valid(p) && p.analyser.Some?
    ensures GetFrequencyData(Disconnect(p), spectrum).data.Some?
    ensures GetFrequencyData(Destroy(p), spectrum).data.Some?
  {
  }

  /** A destroyed processor keeps its closed context: `resume` cannot revive it, and a
      later file load does not create a fresh one. */
  lemma DestroyedStaysClosed(p: Processor, outcome: ContextOutcome, url: string)
    requires Valid(p) && p.context.Some?
    ensures Resume(Destroy(p)).context == Some(Closed)
    ensures LoadAudioFile(Destroy(p), outcome, url).proc.context == Some(Closed)
  {
  }
}

=== FILE: bars.dfy ===
/** The per-frame arithmetic of `BarsVisualizer`: 128 bars sampled from the frequency
    buffer at a fixed stride, each standing on the bottom edge of the canvas. */
module BarsVisualizer {
  import opened Bytes
  import opened Geometry

  const BarCount: nat := 128

  /** `Math.floor(data.length / barCount)`. */
  function Stride(len: nat): (r: nat)
  {
    len / BarCount
  }

  /** The buffer index bar `i` reads, `i * step`; it is always inside a non-empty buffer. */
  function SampleIndex(i: nat, len: nat): (k: nat)
    requires i < BarCount && len >= 1
    ensures k == i * Stride(len)
    ensures k < len
  {
    var step := Stride(len);
    if step == 0 then 0
    else
      assert i * step < BarCount * step by {
        StrictlyBelowMultiple(i, BarCount, step);
      }
      i * step
  }

  /** For the 1024-bin buffer the stride is 8, so the last bar reads bin 1016. */
  lemma SamplesOf1024(i: nat)
    requires i < BarCount
    ensures SampleIndex(i, 1024) == 8 * i
    ensures SampleIndex(i, 1024) <= 1016
  {
  }

  /** Once the buffer holds at least one bin per bar, bars further right read strictly
      higher bins. */
  lemma SamplesIncrease(i: nat, j: nat, len: nat)
    requires i < j < BarCount && len >= BarCount
    ensures SampleIndex(i, len) < SampleIndex(j, len)
  {
    StrictlyBelowMultiple(i, j, Stride(len));
  }

  /** One bar as it is handed to `fillRect(x, y, width, height)`. */
  datatype Bar = Bar(x: real, y: real, width: real, height: real)

  /** `(v / 255) * canvas.height * 0.8`. */
  function BarHeight(v: Byte, height: nat): (r: real)
    ensures 0.0 <= r <= 0.8 * height as real
    ensures v == 0 ==> r == 0.0
    ensures v == 255 ==> r == 0.8 * height as real
  {
    ShareWithin(v as real, 255.0, height as real);
    Share(v as real, 255.0, height as real) * 0.8
  }

  /** On a canvas of positive height, a louder bin always draws a strictly taller bar, so
      the bar's height determines the sampled byte. */
  lemma BarHeightOrder(u: Byte, v: Byte, height: nat)
    requires height > 0
    ensures BarHeight(u, height) < BarHeight(v, height) <==> u < v
    ensures BarHeight(u, height) == BarHeight(v, height) <==> u == v
  {
    ShareOrderIff(u as real, v as real, 255.0, height as real);
    ShareOrderIff(v as real, u as real, 255.0, height as real);
  }

  /** Bar `i` of a frame. */
  function BarAt(data: seq<Byte>, i: nat, width: nat, height: nat): (b: Bar)
    requires i < BarCount && |data| >= 1
    ensures b.y + b.height == height as real
    ensures 0.0 <= b.height <= 0.8 * height as real
    ensures 0.2 * height as real <= b.y <= height as real
    ensures b.x == i as real * (width as real / BarCount as real)
    ensures 0.0 <= b.x <= width as real
    ensures width > 0 ==> b.x < width as real
  {
    var barWidth := width as real / BarCount as real;
    var h := BarHeight(data[SampleIndex(i, |data|)], height);
    SlotInside(i, BarCount, width as real);
    Bar(i as real * barWidth, height as real - h, barWidth - 2.0, h)
  }

  /** The 128 bars of one frame: each stands on the bottom edge, rises at most 80% of the
      canvas, and the bars sit side by side from the left edge, all starting inside the canvas. */
  function Frame(data: seq<Byte>, width: nat, height: nat): (r: seq<Bar>)
    requires |data| >= 1
    ensures |r| == BarCount
    ensures forall i :: 0 <= i < |r| ==>
              && r[i].y + r[i].height == height as real
              && 0.0 <= r[i].height <= 0.8 * height as real
              && 0.2 * height as real <= r[i].y <= height as real
    ensures forall i :: 0 <= i < |r| ==> r[i].height == BarHeight(data[SampleIndex(i, |data|)], height)
    ensures r[0].x == 0.0
    ensures forall i :: 0 <= i < |r| - 1 ==> r[i + 1].x == r[i].x + width as real / BarCount as real
    ensures forall i :: 0 <= i < |r| ==> 0.0 <= r[i].x <= width as real
    ensures width > 0 ==> forall i :: 0 <= i < |r| ==> r[i].x < width as real
  {
    seq(BarCount, i requires 0 <= i < BarCount => BarAt(data, i, width, height))
  }
}

=== FILE: bytes.dfy ===
/** Unsigned byte buffers and the arithmetic the band getters perform on them. */
module Bytes {

  /** One element of a `Uint8Array` feature buffer. */
  type Byte = b: int | 0 <= b < 256

  /** The sum `reduce((a, b) => a + b, 0)` computes, accumulated left to right. */
  function Sum(s: seq<Byte>): (total: int)
  {
    if |s| == 0 then 0 else Sum(s[..|s| - 1]) + s[|s| - 1]
  }

  /** Every element is a byte, so a sum is bounded by 255 per element. */
  lemma {:induction false} SumBounds(s: seq<Byte>)
    ensures 0 <= Sum(s) <= 255 * |s|
  {
    if |s| > 0 {
      SumBounds(s[..|s| - 1]);
    }
  }

  /** Summing a concatenation is summing the parts. */
  lemma {:induction false} SumConcat(a: seq<Byte>, b: seq<Byte>)
    ensures Sum(a + b) == Sum(a) + Sum(b)
  {
    if |b| == 0 {
      assert a + b == a;
    } else {
      SumConcat(a, b[..|b| - 1]);
      assert (a + b)[..|a + b| - 1] == a + b[..|b| - 1];
    }
  }

  /** A JavaScript number as far as a mean can produce one: a real, or the NaN of `0 / 0`. */
  datatype Number = NaN | Num(value: real)

  /** `sum / length` of a slice of bytes; an empty slice gives `0 / 0`, which is NaN. */
  function Mean(s: seq<Byte>): (r: Number)
    ensures r.NaN? <==> |s| == 0
    ensures r.Num? ==> 0.0 <= r.value <= 255.0
    ensures r.Num? ==> r.value * (|s| as real) == Sum(s) as real
  {
    if |s| == 0 then NaN
    else
      SumBounds(s);
      Num(Sum(s) as real / |s| as real)
  }
}

=== FILE: circular.dfy ===
/** The per-frame arithmetic of `CircularVisualizer`: 180 spokes sampled from the frequency
    buffer, each starting on a circle of radius `min(width, height) / 4` and growing outward
    in proportion to its bin, coloured by its angle; and the centre ring drawn after them.
    The canvas size is the one read when the visualizer was set up. */
module CircularVisualizer {
  import opened Bytes
  import opened Geometry

  const SliceCount: nat := 180

  /** `Math.floor(data.length / bars)`. */
  function Stride(len: nat): (r: nat)
  {
    len / SliceCount
  }

  /** The buffer index slice `i` reads, `i * step`; it is always inside a non-empty buffer. */
  function SampleIndex(i: nat, len: nat): (k: nat)
    requires i < SliceCount && len >= 1
    ensures k == i * Stride(len)
    ensures k < len
    ensures k < SliceCount * Stride(len) || k == 0
  {
    var step := Stride(len);
    if step == 0 then 0
    else
      assert i * step < SliceCount * step by {
        StrictlyBelowMultiple(i, SliceCount, step);
      }
      i * step
  }

  /** For the 1024-bin buffer the stride is 5, so bins 900 and above are never drawn. */
  lemma SamplesOf1024(i: nat)
    requires i < SliceCount
    ensures SampleIndex(i, 1024) == 5 * i
    ensures SampleIndex(i, 1024) < 900
  {
  }

  function Min(a: nat, b: nat): (r: nat) { if a <= b then a else b }

  /** `Math.min(canvas.width, canvas.height) / 4`. */
  function Radius(width: nat, height: nat): (r: real)
    ensures 0.0 <= r
    ensures 4.0 * r <= width as real && 4.0 * r <= height as real
  {
    Min(width, height) as real / 4.0
  }

  /** One spoke: it starts at distance `inner` from the centre, extends by `length`
      (`percent * radius`), at angle `angle` degrees, stroked with hue `hue`. */
  datatype Spoke = Spoke(inner: real, length: real, angle: real, hue: real)

  /** `(i / bars) * 360`. */
  function Hue(i: nat): (r: real)
    requires i < SliceCount
    ensures 0.0 <= r < 360.0
    ensures r == 2.0 * i as real
  {
    (i as real / SliceCount as real) * 360.0
  }

  /** Slices get pairwise different hues. */
  lemma HuesDistinct(i: nat, j: nat)
    requires i < SliceCount && j < SliceCount && i != j
    ensures Hue(i) != Hue(j)
  {
  }

  /** `(value / 255) * radius`. */
  function SpokeLength(v: Byte, radius: real): (r: real)
    requires radius >= 0.0
    ensures 0.0 <= r <= radius
    ensures v == 255 ==> r == radius
  {
    ShareWithin(v as real, 255.0, radius);
    Share(v as real, 255.0, radius)
  }

  /** With a positive radius a louder bin always draws a strictly longer spoke. */
  lemma SpokeLengthOrder(u: Byte, v: Byte, radius: real)
    requires radius > 0.0
    ensures SpokeLength(u, radius) < SpokeLength(v, radius) <==> u < v
  {
    ShareOrderIff(u as real, v as real, 255.0, radius);
  }

  function SpokeAt(data: seq<Byte>, i: nat, width: nat, height: nat): (r: Spoke)
    requires i < SliceCount && |data| >= 1
  {
    var radius := Radius(width, height);
    // angle (2 * PI * i) / bars radians, written in degrees
    Spoke(radius, SpokeLength(data[SampleIndex(i, |data|)], radius),
          (360.0 * i as real) / SliceCount as real, Hue(i))
  }

  /** The 180 spokes of one frame: each starts on the circle, reaches at most twice its
      radius, and is coloured by the hue equal to its angle in degrees, in [0, 360). */
  function Frame(data: seq<Byte>, width: nat, height: nat): (r: seq<Spoke>)
    requires |data| >= 1
    ensures |r| == SliceCount
    ensures forall i :: 0 <= i < |r| ==>
              && r[i].inner == Radius(width, height)
              && 0.0 <= r[i].length <= r[i].inner
              && r[i].hue == r[i].angle
              && 0.0 <= r[i].hue < 360.0
    ensures forall i :: 0 <= i < |r| ==>
              r[i].length == SpokeLength(data[SampleIndex(i, |data|)], Radius(width, height))
    ensures forall i :: 0 <= i < |r| ==> r[i].hue == Hue(i) && r[i].angle == 2.0 * i as real
  {
    seq(SliceCount, i requires 0 <= i < SliceCount => SpokeAt(data, i, width, height))
  }

  // The centre ring, `ctx.arc(centerX, centerY, radius - 10, 0, 2 * PI)`.

  /** The canvas `arc` call accepts a radius only when it is not negative; a negative radius
      throws an IndexSizeError. */
  predicate ArcAccepts(radius: real)
  {
    radius >= 0.0
  }

  /** The ring radius as written: `radius - 10`. It lies strictly inside the spokes' circle,
      and it is negative exactly when the shorter canvas side is under 40 pixels. */
  function RingRadiusAsWritten(width: nat, height: nat): (r: real)
    ensures r < Radius(width, height)
    ensures r < 0.0 <==> Min(width, height) < 40
  {
    Radius(width, height) - 10.0
  }

  /** The ring as written is accepted exactly on canvases at least 40 pixels in both
      directions; below that the `arc` call throws. */
  lemma RingAsWrittenAcceptedIff(width: nat, height: nat)
    ensures ArcAccepts(RingRadiusAsWritten(width, height)) <==> width >= 40 && height >= 40
  {
  }

  /** A 30 x 30 canvas: the ring radius is -2.5 and the `arc` call throws. */
  lemma SmallCanvasRingThrows()
    ensures RingRadiusAsWritten(30, 30) == -2.5
    ensures !ArcAccepts(RingRadiusAsWritten(30, 30))
  {
  }

  /** The ring radius clamped at zero: the same ring wherever the written one is drawn,
      and a degenerate ring instead of a throw on smaller canvases. */
  function RingRadius(width: nat, height: nat): (r: real)
    ensures ArcAccepts(r)
    ensures ArcAccepts(RingRadiusAsWritten(width, height)) ==> r == RingRadiusAsWritten(width, height)
    ensures r <= Radius(width, height)
  {
    var written := RingRadiusAsWritten(width, height);
    if written < 0.0 then 0.0 else written
  }
}

=== FILE: geometry.dfy ===
/** Real-valued facts shared by the visualizers' canvas arithmetic. */
module Geometry {

  /** A fraction in [0, 1] of a non-negative magnitude stays within [0, magnitude]. */
  lemma ScaledWithin(a: real, m: real)
    requires 0.0 <= a <= 1.0 && m >= 0.0
    ensures 0.0 <= a * m <= m
  {
    assert (1.0 - a) * m >= 0.0;
  }

  /** Scaling by a positive factor keeps a strict order. */
  lemma ScaledOrder(a: real, b: real, k: real)
    requires k > 0.0 && a < b
    ensures a * k < b * k
  {
    assert (b - a) * k > 0.0;
  }

  /** Scaling by a positive factor neither creates nor removes a strict order. */
  lemma ScaledOrderIff(a: real, b: real, k: real)
    requires k > 0.0
    ensures a * k < b * k <==> a < b
  {
    if a < b {
      ScaledOrder(a, b, k);
    } else {
      assert (a - b) * k >= 0.0;
    }
  }

  /** The share `a / d` of an extent `m`, the shape of every "value over its maximum, times
      the room available" the visualizers compute. */
  function Share(a: real, d: real, m: real): (r: real)
    requires d > 0.0
  {
    (a / d) * m
  }

  /** A share of at most the whole stays inside the extent, and the whole is all of it. */
  lemma ShareWithin(a: real, d: real, m: real)
    requires 0.0 <= a <= d && d > 0.0 && m >= 0.0
    ensures 0.0 <= Share(a, d, m) <= m
    ensures a == d ==> Share(a, d, m) == m
  {
    ScaledWithin(a / d, m);
  }

  /** A share of a positive extent grows strictly with its numerator. */
  lemma ShareOrderIff(a: real, b: real, d: real, m: real)
    requires d > 0.0 && m > 0.0
    ensures Share(a, d, m) < Share(b, d, m) <==> a < b
  {
    ScaledOrderIff(a / d, b / d, m);
    assert a / d < b / d <==> a < b;
  }

  /** A share of a non-negative extent never shrinks as its numerator grows. */
  lemma ShareMonotone(a: real, b: real, d: real, m: real)
    requires d > 0.0 && m >= 0.0 && a <= b
    ensures Share(a, d, m) <= Share(b, d, m)
  {
    if m > 0.0 {
      ShareOrderIff(b, a, d, m);
    }
  }

  /** The left edge `i * (extent / n)` of slot `i` of `n` equal slots lies inside the extent,
      strictly so when the extent is positive. */
  lemma SlotInside(i: nat, n: nat, extent: real)
    requires i < n && extent >= 0.0
    ensures 0.0 <= i as real * (extent / n as real) <= extent
    ensures extent > 0.0 ==> i as real * (extent / n as real) < extent
  {
    var a := i as real / n as real;
    assert i as real * (extent / n as real) == a * extent;
    ScaledWithin(a, extent);
    if extent > 0.0 {
      ScaledOrder(a, 1.0, extent);
    }
  }

  /** A smaller factor of a positive stride gives a strictly smaller multiple. */
  lemma StrictlyBelowMultiple(i: nat, n: nat, step: nat)
    requires i < n && step > 0
    ensures i * step < n * step
  {
  }
}

=== FILE: particles.dfy ===
/** The per-frame arithmetic of `ParticlesVisualizer`: 200 particles whose speed and drawn
    size grow with the loudness, that re-enter at the opposite edge when they leave the
    canvas, and that are linked to every later particle within a loudness-dependent
    distance. The population is updated in place, so when particle `i` is compared with
    a later particle `j`, `i` has already moved this frame and `j` has not. */
module ParticlesVisualizer {
  import opened Geometry
  import opened Bytes
  import AudioProcessor

  const ParticleCount: nat := 200

  /** The link distance at zero intensity. */
  const LinkDistance: real := 100.0

  datatype Particle = Particle(x: real, y: real, vx: real, vy: real, size: real)

  /** A line drawn between particle `i` and the later particle `j`. */
  datatype Link = Link(i: nat, j: nat)

  /** What the random initialisation promises: a position on the canvas, each velocity
      component in [-1, 1) and a base size in [1, 4). */
  predicate Spawned(p: Particle, width: nat, height: nat)
  {
    && 0.0 <= p.x <= width as real && 0.0 <= p.y <= height as real
    && -1.0 <= p.vx < 1.0 && -1.0 <= p.vy < 1.0
    && 1.0 <= p.size < 4.0
  }

  /** `average / 255`, for an average band energy in [0, 255]. */
  function Intensity(average: real): (t: real)
    requires 0.0 <= average <= 255.0
    ensures 0.0 <= t <= 1.0
    ensures t * 255.0 == average
  {
    average / 255.0
  }

  /** The intensity a frame uses: `getAverageFrequency() / 255`, from a pull of its own;
      0 while the processor has no analyser, and never NaN since the buffer has 1024 bins. */
  function FrameIntensity(p: AudioProcessor.Processor, spectrum: seq<Byte>): (t: real)
    requires AudioProcessor.Valid(p)
    ensures 0.0 <= t <= 1.0
    ensures p.analyser.None? ==> t == 0.0
    ensures p.analyser.Some? ==>
              t * 255.0 * 1024.0 == Sum(AudioProcessor.GetFrequencyData(p, spectrum).proc.dataArray.value) as real
  {
    var average := AudioProcessor.GetAverageFrequency(p, spectrum).value;
    Intensity(average.value)
  }

  /** The edge rule on one axis: below 0 jumps to the far edge, beyond the far edge jumps to 0. */
  function Wrap(c: real, bound: real): (r: real)
    requires bound >= 0.0
    ensures 0.0 <= r <= bound
    ensures 0.0 <= c <= bound ==> r == c
    ensures c < 0.0 ==> r == bound
    ensures c > bound ==> r == 0.0
  {
    if c < 0.0 then bound else if c > bound then 0.0 else c
  }

  /** Wrapping a coordinate already on the canvas changes nothing. */
  lemma WrapIdempotent(c: real, bound: real)
    requires bound >= 0.0
    ensures Wrap(Wrap(c, bound), bound) == Wrap(c, bound)
  {
  }

  /** The wrap lands on the closed range: a particle leaving at the left edge sits exactly on
      the right edge, and the distance travelled beyond an edge is dropped. */
  lemma WrapIsNotModular()
    ensures Wrap(-0.5, 10.0) == 10.0
    ensures Wrap(10.5, 10.0) == 0.0
  {
  }

  /** One particle's update: advance by its velocity scaled by `1 + intensity`, then wrap. */
  function Move(p: Particle, t: real, width: nat, height: nat): (q: Particle)
    ensures q.vx == p.vx && q.vy == p.vy && q.size == p.size
    ensures 0.0 <= q.x <= width as real && 0.0 <= q.y <= height as real
    ensures q.x == Wrap(p.x + p.vx * (1.0 + t), width as real)
    ensures q.y == Wrap(p.y + p.vy * (1.0 + t), height as real)
  {
    p.(x := Wrap(p.x + p.vx * (1.0 + t), width as real),
       y := Wrap(p.y + p.vy * (1.0 + t), height as real))
  }

  /** A particle whose step stays on the canvas moves by exactly its scaled velocity. */
  lemma MoveInside(p: Particle, t: real, width: nat, height: nat)
    requires 0.0 <= p.x + p.vx * (1.0 + t) <= width as real
    requires 0.0 <= p.y + p.vy * (1.0 + t) <= height as real
    ensures Move(p, t, width, height).x - p.x == p.vx * (1.0 + t)
    ensures Move(p, t, width, height).y - p.y == p.vy * (1.0 + t)
  {
  }

  /** Moving keeps a spawned particle spawned: the population never leaves the canvas and
      never changes velocity or size. */
  lemma MovePreservesSpawned(p: Particle, t: real, width: nat, height: nat)
    requires Spawned(p, width, height)
    ensures Spawned(Move(p, t, width, height), width, height)
  {
  }

  /** The whole population after the position updates of one frame. */
  function Moved(ps: seq<Particle>, t: real, width: nat, height: nat): (r: seq<Particle>)
    ensures |r| == |ps|
    ensures forall k :: 0 <= k < |r| ==> r[k] == Move(ps[k], t, width, height)
  {
    seq(|ps|, k requires 0 <= k < |ps| => Move(ps[k], t, width, height))
  }

  /** `particle.size * (1 + intensity * 2)`. */
  function DrawnSize(size: real, t: real): (r: real)
    requires size >= 0.0 && 0.0 <= t <= 1.0
    ensures size <= r <= 3.0 * size
  {
    ScaledWithin(t, 2.0 * size);
    size * (1.0 + t * 2.0)
  }

  /** The fill alpha `0.6 + intensity * 0.4`. */
  function Alpha(t: real): (r: real)
    requires 0.0 <= t <= 1.0
    ensures 0.6 <= r <= 1.0
  {
    0.6 + t * 0.4
  }

  /** `(i / particleCount) * 360`. */
  function Hue(i: nat): (r: real)
    requires i < ParticleCount
    ensures 0.0 <= r < 360.0
  {
    (i as real / ParticleCount as real) * 360.0
  }

  /** `100 * (1 + intensity)`. */
  function LinkRadius(t: real): (r: real)
    requires 0.0 <= t
    ensures LinkDistance <= r
  {
    LinkDistance * (1.0 + t)
  }

  /** The link test, with squared distances in place of `Math.sqrt`. */
  predicate Near(a: Particle, b: Particle, t: real)
    requires 0.0 <= t
  {
    var dx := a.x - b.x;
    var dy := a.y - b.y;
    dx * dx + dy * dy < LinkRadius(t) * LinkRadius(t)
  }

  /** The squared comparison agrees with `dist < 100 * (1 + intensity)` for the distance
      `dist`, the non-negative root of `dx * dx + dy * dy`. */
  lemma NearIffWithinDistance(a: Particle, b: Particle, t: real, dist: real)
    requires 0.0 <= t && 0.0 <= dist
    requires dist * dist == (a.x - b.x) * (a.x - b.x) + (a.y - b.y) * (a.y - b.y)
    ensures Near(a, b, t) <==> dist < LinkRadius(t)
  {
    var r := LinkRadius(t);
    if dist < r {
      assert (r - dist) * dist >= 0.0;
      assert (r - dist) * r > 0.0;
      assert dist * dist < r * r;
    } else {
      assert (dist - r) * dist >= 0.0;
      assert (dist - r) * r >= 0.0;
      assert r * r <= dist * dist;
    }
  }

  /** The pairs `slice(i + 1)` visits for particle `i` of `n`, in order. */
  function Row(i: nat, n: nat): (r: seq<Link>)
    requires i < n
    ensures |r| == n - i - 1
    ensures forall k :: 0 <= k < |r| ==> r[k] == Link(i, i + 1 + k)
  {
    seq(n - i - 1, k requires 0 <= k < n - i - 1 => Link(i, i + 1 + k))
  }

  /** The pairs tested for the first `i` particles of `n`, in the order the nested
      `forEach` loops test them. */
  function PairsUpTo(i: nat, n: nat): (pairs: seq<Link>)
    requires i <= n
  {
    if i == 0 then [] else PairsUpTo(i - 1, n) + Row(i - 1, n)
  }

  /** A pair is tested exactly when its first particle comes before its second. */
  lemma {:induction false} PairsUpToMembership(i: nat, n: nat)
    requires i <= n
    ensures forall l :: l in PairsUpTo(i, n) <==> l.i < i && l.i < l.j < n
  {
    if i > 0 {
      PairsUpToMembership(i - 1, n);
      forall l: Link | l.i < i && l.i < l.j < n
        ensures l in PairsUpTo(i, n)
      {
        if l.i == i - 1 {
          assert Row(i - 1, n)[l.j - i] == l;
        }
      }
    }
  }

  /** `l` comes before `m` in the order of the nested loops. */
  predicate Before(l: Link, m: Link)
  {
    l.i < m.i || (l.i == m.i && l.j < m.j)
  }

  /** The tests come in strictly increasing order, so no pair is tested twice. */
  lemma {:induction false} PairsUpToOrdered(i: nat, n: nat)
    requires i <= n
    ensures forall a, b :: 0 <= a < b < |PairsUpTo(i, n)| ==>
              Before(PairsUpTo(i, n)[a], PairsUpTo(i, n)[b])
  {
    if i > 0 {
      PairsUpToOrdered(i - 1, n);
      PairsUpToMembership(i - 1, n);
      var front, row := PairsUpTo(i - 1, n), Row(i - 1, n);
      assert forall a :: 0 <= a < |front| ==> front[a] in front;
      assert PairsUpTo(i, n) == front + row;
    }
  }

  /** The number of tests for the first `i` particles of `n`. */
  lemma {:induction false} PairsUpToLength(i: nat, n: nat)
    requires i <= n
    ensures 2 * |PairsUpTo(i, n)| == i * (2 * n - i - 1)
  {
    if i > 0 {
      PairsUpToLength(i - 1, n);
    }
  }

  /** A full frame tests every unordered pair once: n(n - 1)/2 tests, 19900 for 200 particles. */
  lemma PairCount(n: nat)
    ensures 2 * |PairsUpTo(n, n)| == n * (n - 1)
    ensures n == ParticleCount ==> |PairsUpTo(n, n)| == 19900
  {
    PairsUpToLength(n, n);
  }

  /** Whether pair `l` is linked when its first particle is taken from `moved` and its
      second from `original`. */
  predicate Linked(l: Link, moved: seq<Particle>, original: seq<Particle>, t: real)
    requires 0.0 <= t
  {
    l.i < |moved| && l.j < |original| && Near(moved[l.i], original[l.j], t)
  }

  /** The tested pairs that end up linked, in testing order. */
  function Keep(tested: seq<Link>, moved: seq<Particle>, original: seq<Particle>, t: real): (links: seq<Link>)
    requires 0.0 <= t
  {
    if |tested| == 0 then []
    else
      var last := tested[|tested| - 1];
      Keep(tested[..|tested| - 1], moved, original, t) + (if Linked(last, moved, original, t) then [last] else [])
  }

  /** Keeping selects exactly the linked pairs among the tested ones. */
  lemma {:induction false} KeepMembership(tested: seq<Link>, moved: seq<Particle>, original: seq<Particle>, t: real)
    requires 0.0 <= t
    ensures forall l :: l in Keep(tested, moved, original, t) <==> l in tested && Linked(l, moved, original, t)
  {
    if |tested| > 0 {
      var front := tested[..|tested| - 1];
      KeepMembership(front, moved, original, t);
      assert tested == front + [tested[|tested| - 1]];
    }
  }

  /** Testing one more pair appends it when it is linked. */
  lemma KeepAppend(tested: seq<Link>, l: Link, moved: seq<Particle>, original: seq<Particle>, t: real)
    requires 0.0 <= t
    ensures Keep(tested + [l], moved, original, t)
            == Keep(tested, moved, original, t) + (if Linked(l, moved, original, t) then [l] else [])
  {
    assert (tested + [l])[..|tested|] == tested;
  }

  /** The inner `forEach` for particle `i`: compare `population[i]` with every later entry
      of `population`, appending each test to `tested` and each hit to `links`. */
  method CompareWithLater(population: seq<Particle>, i: nat, t: real,
                          ghost moved: seq<Particle>, ghost original: seq<Particle>,
                          tested0: seq<Link>, links0: seq<Link>)
    returns (tested: seq<Link>, links: seq<Link>)
    requires 0.0 <= t && i < |population| == |moved| == |original|
    requires population[i] == moved[i]
    requires forall k :: i < k < |population| ==> population[k] == original[k]
    requires links0 == Keep(tested0, moved, original, t)
    ensures tested == tested0 + Row(i, |population|)
    ensures links == Keep(tested, moved, original, t)
  {
    var n := |population|;
    tested, links := tested0, links0;
    var j := i + 1;
    while j < n
      invariant i + 1 <= j <= n
      invariant tested == tested0 + Row(i, n)[..j - i - 1]
      invariant links == Keep(tested, moved, original, t)
    {
      var l := Link(i, j);
      KeepAppend(tested, l, moved, original, t);
      assert Linked(l, moved, original, t) == Near(population[i], population[j], t);
      if Near(population[i], population[j], t) {
        links := links + [l];
      }
      assert Row(i, n)[..j - i] == Row(i, n)[..j - i - 1] + [l];
      tested := tested + [l];
      j := j + 1;
    }
    assert Row(i, n)[..n - i - 1] == Row(i, n);
  }

  /** One frame of the particle field as the `forEach` loops run it: particle `i` is moved
      in place, then compared with every later particle, which has not moved yet. Returns
      the new population, the pairs tested, and the pairs linked. */
  method Step(ps: seq<Particle>, t: real, width: nat, height: nat)
    returns (next: seq<Particle>, tested: seq<Link>, links: seq<Link>)
    requires 0.0 <= t
    ensures next == Moved(ps, t, width, height)
    ensures tested == PairsUpTo(|ps|, |ps|)
    ensures links == Keep(tested, next, ps, t)
  {
    var n := |ps|;
    ghost var moved := Moved(ps, t, width, height);
    next := ps;
    tested := [];
    links := [];
    var i := 0;
    while i < n
      invariant 0 <= i <= n && |next| == n
      invariant forall k :: 0 <= k < i ==> next[k] == moved[k]
      invariant forall k :: i <= k < n ==> next[k] == ps[k]
      invariant tested == PairsUpTo(i, n)
      invariant links == Keep(tested, moved, ps, t)
    {
      next := next[i := Move(next[i], t, width, height)];
      tested, links := CompareWithLater(next, i, t, moved, ps, tested, links);
      i := i + 1;
    }
  }

  /** After a step, a pair is linked exactly when its first particle's new position is
      within the link radius of its second particle's old position; links come in testing
      order, so none is drawn twice. */
  lemma StepLinks(ps: seq<Particle>, t: real, width: nat, height: nat, links: seq<Link>)
    requires 0.0 <= t
    requires links == Keep(PairsUpTo(|ps|, |ps|), Moved(ps, t, width, height), ps, t)
    ensures forall l :: l in links <==>
              l.i < l.j < |ps| && Near(Move(ps[l.i], t, width, height), ps[l.j], t)
  {
    KeepMembership(PairsUpTo(|ps|, |ps|), Moved(ps, t, width, height), ps, t);
    PairsUpToMembership(|ps|, |ps|);
  }
}

=== FILE: render_loop.dfy ===
/** The animation loop every visualizer runs inside its effect: `draw` paints one frame and
    schedules the next with `requestAnimationFrame`, and the effect's cleanup cancels the
    pending frame and removes the resize listener. Frames are identified by the positive
    handles `requestAnimationFrame` hands out; only a pending handle's callback runs. */
module RenderLoop {
  import CircularVisualizer

  datatype Kind = Bars | Circular | Wave | Particles

  /** What a frame leaves on the canvas, in painting order. */
  datatype Layer = Fade(alpha: real) | Content(kind: Kind) | Ring

  /** The loop's state: the pending frame handles, the next handle the scheduler will hand
      out, `animationRef.current` (0 for `null`), whether the resize listener is installed,
      and everything painted so far. */
  datatype Loop = Loop(pending: set<nat>, nextHandle: nat, animationRef: nat,
                       listening: bool, surface: seq<Layer>)

  /** A freshly mounted component: nothing scheduled, `animationRef` null. */
  function Initial(): (r: Loop)
  {
    Loop({}, 1, 0, false, [])
  }

  /** A freshly mounted component is stopped, and so sound. */
  lemma InitialStopped()
    ensures Stopped(Initial()) && Sound(Initial())
  {
  }

  /** The translucent overlay each visualizer fades the previous frame with: a light fade
      for Bars, lighter for Circular and Wave, and the lightest, the longest trails, for
      Particles. */
  function FadeAlpha(kind: Kind): (a: real)
    ensures 0.0 < a <= 0.2
    ensures a == 0.2 <==> kind == Bars
    ensures kind == Particles <==> a < 0.1
  {
    match kind
    case Bars => 0.2
    case Circular => 0.1
    case Wave => 0.1
    case Particles => 0.05
  }

  /** `animationRef.current = requestAnimationFrame(draw)`. */
  function RequestFrame(l: Loop): (r: Loop)
    ensures r.pending == l.pending + {l.nextHandle}
    ensures r.animationRef == l.nextHandle && r.nextHandle > l.nextHandle
    ensures r.listening == l.listening && r.surface == l.surface
  {
    l.(pending := l.pending + {l.nextHandle}, animationRef := l.nextHandle,
       nextHandle := l.nextHandle + 1)
  }

  /** A `draw` throws exactly when it is a Circular frame with data whose centre ring has a
      radius `arc` rejects. */
  predicate Throws(kind: Kind, hasData: bool, ringRadius: real)
  {
    kind == Circular && hasData && !CircularVisualizer.ArcAccepts(ringRadius)
  }

  /** The layers one `draw` paints: without data only Particles paints (its fade comes before
      the data check); with data the fade is followed by the visualizer's content, and for
      Circular by the centre ring unless the ring throws. */
  function Painted(kind: Kind, hasData: bool, ringRadius: real): (layers: seq<Layer>)
    ensures |layers| > 0 <==> hasData || kind == Particles
    ensures |layers| > 0 ==> layers[0] == Fade(FadeAlpha(kind))
    ensures Content(kind) in layers <==> hasData
    ensures !hasData && kind == Particles ==> layers == [Fade(FadeAlpha(Particles))]
    ensures Ring in layers <==> kind == Circular && hasData && !Throws(kind, hasData, ringRadius)
  {
    if !hasData then
      if kind == Particles then [Fade(FadeAlpha(kind))] else []
    else if kind != Circular then
      [Fade(FadeAlpha(kind)), Content(kind)]
    else if CircularVisualizer.ArcAccepts(ringRadius) then
      [Fade(FadeAlpha(kind)), Content(kind), Ring]
    else
      [Fade(FadeAlpha(kind)), Content(kind)]
  }

  /** One run of `draw`: paint, then schedule the next frame. A throw in `arc` ends the run
      after the spokes are painted, so nothing is scheduled. */
  function Draw(l: Loop, kind: Kind, hasData: bool, ringRadius: real): (r: Loop)
    ensures r.surface == l.surface + Painted(kind, hasData, ringRadius)
    ensures r.listening == l.listening
    ensures !Throws(kind, hasData, ringRadius) ==>
              r.pending == l.pending + {l.nextHandle} && r.animationRef == l.nextHandle
              && r.nextHandle > l.nextHandle
    ensures Throws(kind, hasData, ringRadius) ==>
              r.pending == l.pending && r.animationRef == l.animationRef
              && r.nextHandle == l.nextHandle
  {
    var painted := l.(surface := l.surface + Painted(kind, hasData, ringRadius));
    if Throws(kind, hasData, ringRadius) then painted else RequestFrame(painted)
  }

  /** The scheduler firing handle `h`: a pending frame is consumed and drawn; a cancelled or
      already-run handle does nothing. */
  function Fire(l: Loop, h: nat, kind: Kind, hasData: bool, ringRadius: real): (r: Loop)
    ensures h !in l.pending ==> r == l
    ensures h in l.pending ==>
              && h !in r.pending - {l.nextHandle}
              && r.surface == l.surface + Painted(kind, hasData, ringRadius)
              && r.listening == l.listening
    ensures h in l.pending && !Throws(kind, hasData, ringRadius) ==>
              r.pending == (l.pending - {h}) + {l.nextHandle}
    ensures h in l.pending && Throws(kind, hasData, ringRadius) ==> r.pending == l.pending - {h}
  {
    if h in l.pending then Draw(l.(pending := l.pending - {h}), kind, hasData, ringRadius) else l
  }

  /** The effect's setup: with a canvas, draw the first frame synchronously, then install the
      resize listener; without one, do nothing and return no cleanup. A first frame that
      throws ends the effect before the listener is installed. */
  function Setup(l: Loop, canvasPresent: bool, kind: Kind, hasData: bool, ringRadius: real): (r: Loop)
    ensures !canvasPresent ==> r == l
    ensures canvasPresent ==>
              && r.surface == l.surface + Painted(kind, hasData, ringRadius)
              && (r.listening <==> l.listening || !Throws(kind, hasData, ringRadius))
              && |r.pending - l.pending| <= 1
  {
    if !canvasPresent then l
    else
      var d := Draw(l, kind, hasData, ringRadius);
      if Throws(kind, hasData, ringRadius) then d
      else
        assert d.pending - l.pending <= {l.nextHandle};
        d.(listening := true)
  }

  /** The effect's cleanup, which exists only when setup installed the listener: cancel the
      frame `animationRef` names, if any, and remove the listener. */
  function Cleanup(l: Loop): (r: Loop)
    ensures r.surface == l.surface && r.nextHandle == l.nextHandle
    ensures !r.listening
    ensures r.pending <= l.pending
    ensures l.listening && l.animationRef != 0 ==> l.animationRef !in r.pending
  {
    if !l.listening then l
    else l.(pending := if l.animationRef != 0 then l.pending - {l.animationRef} else l.pending,
            listening := false)
  }

  /** A mounted loop: exactly one frame pending, the one `animationRef` names, and the
      listener installed. */
  predicate Running(l: Loop)
  {
    && l.listening
    && 0 < l.animationRef < l.nextHandle
    && l.pending == {l.animationRef}
  }

  /** A torn-down (or never started) loop: nothing pending, no listener. */
  predicate Stopped(l: Loop)
  {
    && !l.listening
    && l.pending == {}
    && l.animationRef < l.nextHandle
  }

  /** What every reachable loop satisfies, a throwing `draw` included: at most the frame
      `animationRef` names is pending, and a pending frame means the listener is installed,
      so cleanup can cancel it. */
  predicate Sound(l: Loop)
  {
    && 0 < l.nextHandle
    && l.animationRef < l.nextHandle
    && l.pending <= {l.animationRef}
    && (l.pending != {} ==> l.listening && 0 < l.animationRef)
  }

  /** Setting up on a stopped loop with a canvas starts it exactly when the first frame does
      not throw; a throwing first frame leaves it stopped. Without a canvas nothing runs. */
  lemma SetupStarts(l: Loop, canvasPresent: bool, kind: Kind, hasData: bool, ringRadius: real)
    requires Stopped(l)
    ensures var r := Setup(l, canvasPresent, kind, hasData, ringRadius);
      && (canvasPresent ==> (Running(r) <==> !Throws(kind, hasData, ringRadius)))
      && (canvasPresent && Throws(kind, hasData, ringRadius) ==> Stopped(r))
      && (!canvasPresent ==> Stopped(r))
  {
  }

  /** A fired frame, the no-data branch included, consumes itself and schedules exactly one
      new frame unless it throws; a throwing frame leaves nothing pending while the listener
      stays installed. The surface grows iff there is data or it is Particles. */
  lemma FireKeepsRunning(l: Loop, kind: Kind, hasData: bool, ringRadius: real)
    requires Running(l)
    ensures var r := Fire(l, l.animationRef, kind, hasData, ringRadius);
      && (Running(r) <==> !Throws(kind, hasData, ringRadius))
      && (Running(r) ==> r.animationRef == l.nextHandle)
      && (!Running(r) ==> r.pending == {} && r.listening)
      && (|r.surface| > |l.surface| <==> hasData || kind == Particles)
  {
  }

  /** The fade comes first in every frame; without data only Particles paints at all. */
  lemma FadeFirst(l: Loop, kind: Kind, hasData: bool, ringRadius: real)
    requires Running(l)
    ensures var r := Fire(l, l.animationRef, kind, hasData, ringRadius);
      && (hasData || kind == Particles ==> r.surface[|l.surface|] == Fade(FadeAlpha(kind)))
      && (!hasData && kind != Particles ==> r.surface == l.surface)
      && (!hasData && kind == Particles ==> r.surface == l.surface + [Fade(FadeAlpha(Particles))])
  {
  }

  /** A handle that is not pending, such as the one cleanup cancelled, paints nothing. */
  lemma StaleFrameIgnored(l: Loop, h: nat, kind: Kind, hasData: bool, ringRadius: real)
    requires h !in l.pending
    ensures Fire(l, h, kind, hasData, ringRadius) == l
  {
  }

  /** Cleanup of a running loop cancels its pending frame and removes the listener; after
      it no scheduled callback can reach the canvas. */
  lemma CleanupStops(l: Loop, h: nat, kind: Kind, hasData: bool, ringRadius: real)
    requires Running(l)
    ensures Stopped(Cleanup(l))
    ensures Fire(Cleanup(l), h, kind, hasData, ringRadius) == Cleanup(l)
  {
  }

  /** What React does to a mounted visualizer: fire a frame, re-run the effect because a
      dependency changed (cleanup, then setup), or unmount (cleanup). */
  datatype Event = Tick(handle: nat, hasData: bool) | Rerun(hasData: bool) | Unmount

  /** One event applied to a loop. */
  function Apply(l: Loop, kind: Kind, canvasPresent: bool, ringRadius: real, e: Event): (r: Loop)
    ensures l.surface <= r.surface && l.nextHandle <= r.nextHandle
  {
    match e
    case Tick(h, hasData) => Fire(l, h, kind, hasData, ringRadius)
    case Rerun(hasData) => Setup(Cleanup(l), canvasPresent, kind, hasData, ringRadius)
    case Unmount => Cleanup(l)
  }

  /** Run a sequence of events on a loop: the canvas log only grows and handles are never
      reused. */
  function Run(l: Loop, kind: Kind, canvasPresent: bool, ringRadius: real, events: seq<Event>): (r: Loop)
    ensures l.surface <= r.surface && l.nextHandle <= r.nextHandle
    decreases |events|
  {
    if |events| == 0 then l
    else Run(Apply(l, kind, canvasPresent, ringRadius, events[0]), kind, canvasPresent, ringRadius, events[1..])
  }

  /** Every event keeps a loop sound, whatever the ring radius. */
  lemma ApplySound(l: Loop, kind: Kind, canvasPresent: bool, ringRadius: real, e: Event)
    requires Sound(l)
    ensures Sound(Apply(l, kind, canvasPresent, ringRadius, e))
  {
  }

  /** Whatever React and the scheduler do, at most one frame is ever pending, so two loops
      never paint the same canvas; this holds for the code as written on every canvas, a
      throwing Circular frame included. */
  lemma {:induction false} AtMostOneFramePending(l: Loop, kind: Kind, canvasPresent: bool,
                                                 ringRadius: real, events: seq<Event>)
    requires Sound(l)
    ensures var r := Run(l, kind, canvasPresent, ringRadius, events);
      Sound(r) && |r.pending| <= 1
    decreases |events|
  {
    if |events| == 0 {
      if l.pending != {} {
        assert l.pending == {l.animationRef};
      }
    } else {
      ApplySound(l, kind, canvasPresent, ringRadius, events[0]);
      AtMostOneFramePending(Apply(l, kind, canvasPresent, ringRadius, events[0]), kind,
                            canvasPresent, ringRadius, events[1..]);
    }
  }

  /** When no frame throws, every event keeps a loop running or stopped. */
  lemma ApplyRunningOrStopped(l: Loop, kind: Kind, canvasPresent: bool, ringRadius: real, e: Event)
    requires Running(l) || Stopped(l)
    requires kind != Circular || CircularVisualizer.ArcAccepts(ringRadius)
    ensures var r := Apply(l, kind, canvasPresent, ringRadius, e);
      Running(r) || Stopped(r)
  {
  }

  /** When no frame can throw, a loop is always either running with exactly one pending frame
      or stopped with none. */
  lemma {:induction false} RunningOrStopped(l: Loop, kind: Kind, canvasPresent: bool,
                                            ringRadius: real, events: seq<Event>)
    requires Running(l) || Stopped(l)
    requires kind != Circular || CircularVisualizer.ArcAccepts(ringRadius)
    ensures var r := Run(l, kind, canvasPresent, ringRadius, events);
      Running(r) || Stopped(r)
    decreases |events|
  {
    if |events| > 0 {
      ApplyRunningOrStopped(l, kind, canvasPresent, ringRadius, events[0]);
      RunningOrStopped(Apply(l, kind, canvasPresent, ringRadius, events[0]), kind,
                       canvasPresent, ringRadius, events[1..]);
    }
  }

  /** As written, a loop keeps running or stays stopped for the three visualizers without a
      ring, and for Circular on canvases at least 40 pixels in both directions. */
  lemma RunningOrStoppedAsWritten(l: Loop, kind: Kind, canvasPresent: bool, width: nat,
                                  height: nat, events: seq<Event>)
    requires Running(l) || Stopped(l)
    requires kind != Circular || (width >= 40 && height >= 40)
    ensures var r := Run(l, kind, canvasPresent,
                         CircularVisualizer.RingRadiusAsWritten(width, height), events);
      Running(r) || Stopped(r)
  {
    CircularVisualizer.RingAsWrittenAcceptedIff(width, height);
    RunningOrStopped(l, kind, canvasPresent,
                     CircularVisualizer.RingRadiusAsWritten(width, height), events);
  }

  /** With the clamped ring, a loop keeps running or stays stopped on every canvas. */
  lemma RunningOrStoppedCorrected(l: Loop, kind: Kind, canvasPresent: bool, width: nat,
                                  height: nat, events: seq<Event>)
    requires Running(l) || Stopped(l)
    ensures var r := Run(l, kind, canvasPresent, CircularVisualizer.RingRadius(width, height), events);
      Running(r) || Stopped(r)
  {
    RunningOrStopped(l, kind, canvasPresent, CircularVisualizer.RingRadius(width, height), events);
  }

  /** As written, the ring radius is `radius - 10`: on a 30 x 30 canvas a running Circular loop
      that receives data throws inside `draw` and ends with no frame pending although it was
      never cleaned up, so the animation stops for good. */
  lemma SmallCanvasStopsCircularAsWritten(l: Loop)
    requires Running(l)
    ensures var r := Fire(l, l.animationRef, Circular, true,
                          CircularVisualizer.RingRadiusAsWritten(30, 30));
      r.pending == {} && r.listening && !Running(r) && !Stopped(r)
  {
    CircularVisualizer.SmallCanvasRingThrows();
  }

  /** With the clamped ring the same frame on the same canvas schedules its successor. */
  lemma SmallCanvasKeepsCircularCorrected(l: Loop)
    requires Running(l)
    ensures Running(Fire(l, l.animationRef, Circular, true, CircularVisualizer.RingRadius(30, 30)))
  {
    FireKeepsRunning(l, Circular, true, CircularVisualizer.RingRadius(30, 30));
  }
}

=== FILE: wave.dfy ===
/** The per-frame arithmetic of `WaveVisualizer`: one polyline through every sample of the
    time-domain buffer, spread evenly across the canvas width, with the silent byte 128
    on the horizontal centre line. */
module WaveVisualizer {
  import opened Bytes
  import opened Geometry

  /** One path command of the polyline. */
  datatype PathCommand = MoveTo(x: real, y: real) | LineTo(x: real, y: real)

  /** The byte that stands for zero amplitude. */
  const Silence: Byte := 128

  /** `(data[i] / 128.0) * canvas.height / 2`. */
  function SampleY(d: Byte, height: nat): (y: real)
    ensures 0.0 <= y <= (255.0 / 256.0) * height as real
  {
    ShareMonotone(0.0, d as real, 128.0, height as real);
    ShareMonotone(d as real, 255.0, 128.0, height as real);
    Share(d as real, 128.0, height as real) / 2.0
  }

  /** Silence lands exactly on the centre line. */
  lemma SilenceIsCentred(height: nat)
    ensures SampleY(Silence, height) == height as real / 2.0
  {
  }

  /** On a canvas of positive height distinct samples land at distinct heights, in order. */
  lemma SampleYOrder(u: Byte, v: Byte, height: nat)
    requires height > 0
    ensures SampleY(u, height) < SampleY(v, height) <==> u < v
  {
    ShareOrderIff(u as real, v as real, 128.0, height as real);
  }

  /** Point `i` of the polyline over `count` samples: at `x = i * (width / count)`, a `moveTo`
      for the first sample and a `lineTo` for every later one. */
  function Point(d: Byte, i: nat, count: nat, width: nat, height: nat): (c: PathCommand)
    requires i < count
    ensures c.MoveTo? <==> i == 0
    ensures c.y == SampleY(d, height)
    ensures 0.0 <= c.x <= width as real
    ensures width > 0 ==> c.x < width as real
  {
    var x := i as real * (width as real / count as real);
    SlotInside(i, count, width as real);
    if i == 0 then MoveTo(x, SampleY(d, height)) else LineTo(x, SampleY(d, height))
  }

  /** The `draw` loop: `x` starts at 0 and grows by `sliceWidth = width / length` per sample,
      so the polyline has one point per sample, evenly spaced from the left edge. */
  method Path(data: seq<Byte>, width: nat, height: nat) returns (path: seq<PathCommand>)
    ensures |path| == |data|
    ensures forall i :: 0 <= i < |path| ==> path[i] == Point(data[i], i, |data|, width, height)
    ensures forall i :: 0 <= i < |path| ==>
              path[i].x == i as real * (width as real / |data| as real)
  {
    path := [];
    if |data| == 0 {
      return;
    }
    var sliceWidth := width as real / |data| as real;
    var x := 0.0;
    var i := 0;
    while i < |data|
      invariant 0 <= i <= |data|
      invariant |path| == i
      invariant x == i as real * sliceWidth
      invariant forall k :: 0 <= k < i ==> path[k] == Point(data[k], k, |data|, width, height)
    {
      var y := SampleY(data[i], height);
      if i == 0 {
        path := path + [MoveTo(x, y)];
      } else {
        path := path + [LineTo(x, y)];
      }
      x := x + sliceWidth;
      i := i + 1;
    }
  }

  /** The polyline starts with a `moveTo` and continues with `lineTo`s, every point inside
      the canvas horizontally and within [0, 255/256] of its height vertically. */
  lemma PathShape(data: seq<Byte>, path: seq<PathCommand>, width: nat, height: nat)
    requires |path| == |data|
    requires forall i :: 0 <= i < |path| ==> path[i] == Point(data[i], i, |data|, width, height)
    ensures forall i :: 0 <= i < |path| ==> (path[i].MoveTo? <==> i == 0)
    ensures forall i :: 0 <= i < |path| ==>
              0.0 <= path[i].x <= width as real && 0.0 <= path[i].y <= (255.0 / 256.0) * height as real
    ensures forall i :: 0 <= i < |path| && data[i] == Silence ==> path[i].y == height as real / 2.0
  {
    forall i | 0 <= i < |path| && data[i] == Silence
      ensures path[i].y == height as real / 2.0
    {
      SilenceIsCentred(height);
    }
  }
}

=== FILE: wrappers.dfy ===
/** Optional values and fallible results, the model's stand-ins for JavaScript's
    `null` and for a thrown `Error`. */
module Wrappers {

  /** A value that may be absent (`null` in the source). */
  datatype Option<+T> = None | Some(value: T)

  /** The outcome of an operation that may throw: its value, or the thrown error's message. */
  datatype Result<+T> = Ok(value: T) | Err(message: string)
}
